=== FILE: README.md ===
# cix / cixd — a Dafny model of the file-transfer client and daemon

cix is an interactive client that reads command lines (`ls`, `get f`, `put f`,
`rm f`, `help`, `exit`) and turns the network ones into request messages to the
cixd daemon. cixd forks one server process per connection. Each process reads
request headers in a loop and answers LS with a directory listing (LSOUT),
GET with the file (FILEOUT), PUT by storing the payload (ACK or NAK), and RM
by unlinking the file (ACK or NAK).

The model has five modules:

- `Protocol` (protocol.dfy) — the command tags and the message header. It
  also has the two sides' directories (`Disk`: the files, the names that
  cannot be opened for writing, the names that cannot be unlinked, and the
  names that cannot be opened for reading even when present) and the
  connection. The connection is a
  sequence of whole header blocks and single payload bytes, and the
  exact-length reads on it can see the peer close or the wrong kind of item.
- `Client` (client.dfy) — the command table and the line tokeniser (the
  semantics of repeated `getline(stream, piece, ' ')`). It also has one turn
  of the read-dispatch loop in `main`, including the four `cix_*` exchanges
  and the help and invalid-command branches. The loop is modelled twice, as
  written and with its buffer bug corrected (see Findings).
- `Daemon` (daemon.dfy) — the four `reply_*` handlers, the `run_server`
  dispatch and the per-connection loop over everything a client sends.
- `Supervisor` (supervisor.dfy) — the accept loop that retries on EINTR,
  `reap_zombies`, and the outer loop of `main` as a sequence of rounds
  (children exit, then accept, fork, sweep).
- `EndToEnd` (endtoend.dfy) — one command line played from the corrected
  client through the daemon handler and back.

Behaviours of the code that the model keeps:

- LS is answered NAK, with errno in `nbytes`, when `popen` of the listing
  command fails.
- The ACK to a PUT keeps the request's `nbytes`, because `reply_put` only
  overwrites the tag.
- RM is answered NAK whenever `unlink` fails, which covers a missing file and
  a present one that may not be removed.
- Reading and removing are separate permissions: a present file the daemon
  may not read is answered NAK to GET and can still be removed by RM, and a
  PUT onto it is acknowledged while a later GET of it is still refused.
- A last input line with no newline ends the session without being run,
  because the loop tests for end of file after `getline`.
- The listing the client prints stops at the first NUL byte (`cout <<` of a
  C string).

Assumptions about code that is not part of this model (protocol.h,
sockets.h):

- The filename field is 59 bytes (`FilenameSize`), so it holds at most 58
  characters and the terminating NUL.
- A freshly declared header has zero `nbytes` and an empty name; the client
  then sets its tag, the filename for `get`, `put` and `rm`, and for PUT
  `nbytes`.
- `recv_packet` either fills the whole buffer or throws.

## Model

| member | source | states |
|---|---|---|
| Protocol.RecvHeader | cixd.cpp:132-134 | a header read takes exactly the first item when it is a header block; it reports a closed connection exactly when nothing is left, and a framing error exactly when a payload byte comes first |
| Protocol.RecvBytes | cixd.cpp:88-90 | a payload read of n bytes returns exactly n bytes with the stream resuming after them; it reports a closed connection only if fewer than n data bytes remain, and a framing error only if a header block sits within the first n items |
| Protocol.RecvBytesOfData | cixd.cpp:88-90 | n bytes sent as data are received back unchanged by an n-byte read, which stops exactly at their end |
| Protocol.RecvFrame | cix.cpp:135-138 | a header followed by its payload is read back as that header and that payload, leaving exactly what followed |
| Client.Lookup | cix.cpp:27-35 | the table maps each of the six command words to its own tag, and every other word (and only those) to ERROR |
| Client.WordSelects | cix.cpp:27-35 | each command's word selects that command |
| Client.Words | cix.cpp:200-204 | no piece contains a space; a line yields no pieces exactly when it is empty |
| Client.WordsRejoin | cix.cpp:200-204 | joining the pieces with single spaces gives the line back, minus one trailing space if the line ends with one, so nothing but that space is lost |
| Client.CString | cix.cpp:70-74 | the shown listing is the longest NUL-free prefix of the received bytes |
| Client.Dispatch | cix.cpp:196-241 | end of input and `exit` end the session and nothing else does; help and invalid lines send nothing, read nothing and change no file, and print the help text or the invalid-command message; a transport error is possible only for a network command; the buffer is emptied after every command except an invalid one in the loop as written, which keeps it; only `get` changes local files, and only the named one; no permission of the local directory changes |
| Client.SentIgnoresReply | cix.cpp:59-176 | each command sends its request before reading any reply, so what is sent, and whether the session ends, does not depend on the daemon's answer |
| Client.ListExchange | cix.cpp:59-76 | `ls` sends a bare LS header; after LSOUT it reads exactly nbytes and shows them, after any other tag it logs a mismatch and reads nothing more |
| Client.GetExchange | cix.cpp:83-109 | `get f` sends a GET naming f; after FILEOUT the local f holds exactly the received bytes, unless it cannot be opened; after any other tag nothing changes and no payload is read |
| Client.PutExchange | cix.cpp:116-151 | `put f` with no readable local f sends nothing and reports it; otherwise it sends a PUT carrying f's size followed by all of f, reports ACK or NAK, and stays silent on any other tag |
| Client.RemoveExchange | cix.cpp:157-176 | `rm f` sends a bare RM naming f and reports ACK or NAK, staying silent on any other tag |
| Client.ClosedConnection | cix.cpp:192-246 | a network command whose reply never comes ends the session through the socket-error path, after the request was sent |
| Client.StepKeepsStale | cix.cpp:237-239 | in the loop as written, the buffer is always empty or starts with an invalid word |
| Client.InvalidSticks | cix.cpp:237-239 | after an invalid line, every next line is invalid too, sends nothing and grows the buffer |
| Client.ExitAfterTypo | cix.cpp:237-239 | after the typo `ecit`, typing `exit` does not end the session |
| Client.FixedAgrees | cix.cpp:209-236 | the corrected loop behaves exactly like the loop as written on every line whose first word is a command |
| Client.FixedForgets | cix.cpp:237-239 | with the correction, the buffer is empty after every turn, so the next line is dispatched on its own first word |
| Daemon.ReplyLs | cixd.cpp:24-53 | the answer is LSOUT exactly when the listing ran; it carries the whole output, its size and a blank name; otherwise NAK with errno in nbytes and no payload |
| Daemon.ReplyGet | cixd.cpp:56-84 | the answer is FILEOUT exactly when the file exists and may be read, carrying its whole contents and its size under the request's name; otherwise the request header with tag NAK and no payload |
| Daemon.ReplyPut | cixd.cpp:87-106 | the answer is ACK exactly when the file can be opened for writing; the file then holds exactly the payload and no other file changes; on NAK nothing changes; only the tag of the request header is replaced |
| Daemon.ReplyRm | cixd.cpp:109-125 | the answer is ACK exactly when `unlink` can succeed, that is the file exists and may be removed, whether or not it may be read; it is then gone and no other file changes; on NAK (missing or not removable) nothing changes; only the tag is replaced |
| Daemon.Handle | cixd.cpp:135-155 | exactly the four request tags are answered, each with an admissible, correctly framed reply; every other tag is ignored; only a PUT consumes input (its payload) and only a PUT can lose the connection; LS and GET leave the directory alone |
| Daemon.Serve | cixd.cpp:127-164 | every exchange of a connection is answered exactly when its tag is one of the four, and then properly; none of the directory's permission sets changes; the log is no longer than the input |
| Daemon.PutStaysFramed | cixd.cpp:87-100 | a PUT takes exactly its nbytes payload bytes before opening the file, so the next header is read from the right place whether the answer is ACK or NAK |
| Daemon.ServeFirst | cixd.cpp:131-156 | a request framed with its payload is handled first, and the loop continues on exactly what follows it, in the directory the handler left |
| Daemon.ServeLastGet | cixd.cpp:131-163 | a connection whose only request is a GET logs exactly that GET with `reply_get`'s answer, keeps the directory, and ends by disconnection |
| Daemon.ServeRemoveThenGet | cixd.cpp:109-125 | RM then GET of f logs `reply_rm`'s answer and then `reply_get`'s answer against the directory the RM left |
| Daemon.ServeScriptHead | cixd.cpp:87-106 | a leading PUT of a writable f is logged as an ACK carrying the PUT's size, and the loop continues with f holding exactly the payload |
| Daemon.ServeScriptTail | cixd.cpp:127-156 | GET, RM, GET of f is answered with `reply_get`'s answer, then `reply_rm`'s answer, then `reply_get`'s answer against the directory the RM left; the connection then ends by disconnection |
| Daemon.ServeScript | cixd.cpp:127-156 | a connection sending PUT f, GET f, RM f, GET f is answered ACK with the PUT's size, then FILEOUT with the same bytes if f may be read and NAK if not; if f may be unlinked, then ACK and NAK, and f is gone; if not, then NAK and the first GET's answer again, and f stays; the connection ends by disconnection |
| Daemon.PutGetRemoveGet | cixd.cpp:56-125 | after an acknowledged PUT, GET returns exactly the bytes put when f may be read and is refused when not; RM is then acknowledged exactly when f may be unlinked; after ACK a later GET is refused, after NAK it returns the same answer as before |
| Supervisor.AcceptRetry | cixd.cpp:221-235 | the loop returns the first accepted connection after only interrupted calls; it gives up on the first failure other than EINTR; it keeps waiting while every call is interrupted |
| Supervisor.InterruptThenConnect | cixd.cpp:225-230 | a signal during accept does not stop the daemon: the next connection is accepted |
| Supervisor.Waitpid | cixd.cpp:185-186 | a non-blocking wait reports nothing exactly when no child has terminated, and otherwise removes one child |
| Supervisor.WaitpidTakesOne | cixd.cpp:185-186 | each collection takes the first terminated child and leaves every running child in place |
| Supervisor.NoneFinished | cixd.cpp:186 | when the wait reports nothing, every child is still running and none is left to collect |
| Supervisor.ReapZombies | cixd.cpp:182-192 | the sweep collects every terminated child (in table order, which is the model's choice) and keeps exactly the running ones, so no zombie remains |
| Supervisor.RunningIsRunning | cixd.cpp:182-192 | after a sweep no terminated child remains and the table has not grown |
| Supervisor.Supervise | cixd.cpp:215-243 | the outer loop never leaves a zombie behind when it starts without one; it accepts at most one connection per round; it stops only on an accept failure other than EINTR |
| Supervisor.FatalStops | cixd.cpp:221-245 | an accept failure other than EINTR ends the daemon: after the rounds before it, each accepting one connection, the run stops with that errno and has accepted exactly those connections |
| Supervisor.EveryRoundAccepts | cixd.cpp:217-243 | when every round's accept eventually succeeds, the daemon never stops and accepts exactly one connection per round, whether or not the fork succeeds |
| Supervisor.AllExitedAllReaped | cixd.cpp:194-197 | once every worker has exited, the SIGCHLD sweep leaves no child in the table |
| Client.OneWord | cix.cpp:200-204 | a non-empty line without a space is split into exactly itself |
| EndToEnd.WordsOfCommand | cix.cpp:200-204 | a command word and a filename with one space between them split into exactly those two words |
| EndToEnd.ReadsAs | cix.cpp:206-233 | a line reading as command c and file f, typed into an empty buffer, selects c and names f |
| EndToEnd.PlayStaysFramed | cixd.cpp:131-156 | after every network command the daemon consumes exactly the request and leaves nothing unread; its reply has an admissible tag; the client reads exactly that reply and nothing more, so both ends agree on where the next message starts |
| EndToEnd.LsPlayed | cixd.cpp:24-53 | `ls` sends a bare LS header; the daemon answers LSOUT with the listing of its own directory, which the client shows up to the first NUL, or NAK with errno when the listing command cannot start, which the client logs as a mismatch; neither directory changes and nothing is left unread |
| EndToEnd.PutPlayed | cix.cpp:116-151 | `put f` of a readable local f sends f's size and bytes; the daemon stores exactly those bytes and answers ACK still carrying the size; the client reports the ACK and keeps its own files |
| EndToEnd.GetPlayed | cix.cpp:83-109 | `get f` of a file the daemon can read brings back FILEOUT with its size and bytes; the daemon changes nothing; the client's f becomes exactly those bytes and no other local file changes |
| EndToEnd.PutThenGet | cixd.cpp:87-106 | `put f` stores exactly the client's bytes on the daemon and is acknowledged with their size; a later `get f` from any client gives it exactly those bytes and leaves its other files as they were when the daemon may read f, and is refused with the client's directory unchanged when it may not |
| EndToEnd.GetRefused | cixd.cpp:56-64 | `get f` of a file the daemon lacks or cannot read is answered with a bare NAK naming f, reported as a mismatch, and neither side changes |
| EndToEnd.RemoveThenGet | cixd.cpp:109-125 | `rm f` of a file the daemon holds and may unlink is acknowledged and removes it; a later `get f` is refused and leaves the client's files alone |
| EndToEnd.RemoveRefused | cixd.cpp:109-125 | `rm f` of a file the daemon lacks or cannot unlink is refused and changes nothing on either side |
| EndToEnd.NotesTyped | cix.cpp:196-236 | the lines "put notes.txt" and "get notes.txt" split into the command word and the name, and played against an empty daemon they store and then bring back the three-byte file, the ACK still saying 3 |
| EndToEnd.NotesExample | cix.cpp:116-151 | `put notes.txt` of a three-byte file sends a size-3 PUT and gets an ACK still saying 3; `get notes.txt` from an empty client then recreates the file |

## Left out

- Sockets, `send_packet` and `recv_packet` are modelled as a sequence of items. A header block is sent or received whole, a payload byte by byte. Partial writes, send failures and the binary header layout are not modelled (protocol.h and sockets.h are not part of this model).
- `nbytes` is an unbounded `nat`. The 32-bit field, and the truncation of a file size or errno into it, are not modelled.
- Protocol.ValidFilename: the client's `snprintf` treats the name as a format string. Names containing `%` are therefore excluded from the model rather than interpreted. The `snprintf` bound is the name's own length plus one, not the 59-byte field, so a name of 59 characters or more overflows the field. Such names are excluded the same way rather than given a meaning.
- Client.Defined: the loop indexes the token buffer without checking it, so an empty line or a missing filename is undefined behaviour in the source. Those steps are excluded by this precondition rather than given a meaning.
- Logging through `outlog`, the exact log text, `hostinfo`, argument parsing and `usage` are not modelled. Log lines are summarised by the `Event` values.
- `popen`/`fgets`/`pclose` of `ls -l` is modelled by the `lister` parameter, which gives the output or the errno of a failed launch. The decoding of the pclose status is only logged, so it is not modelled.
- A read that meets the wrong kind of item is modelled as the end of the session: `Misframed` becomes a lost exchange (`Broken`) on the client and `Desynchronised` on the daemon. In the source `recv_packet` reads raw bytes, and the program carries on with whatever they decode to. What the stray bytes would decode to depends on the binary header layout, which is not part of this model.
- Supervisor.Waitpid: `waitpid(-1, …, WNOHANG)` may return any terminated child. The model returns the first one in table order. The children reaped and the ones left running do not depend on this choice; only the order of the reaped pids does.
- File contents come from the `Disk` value. An open failure is a name missing from `files` or present in `unreadable` (for reading), or present in `readOnly` (for writing). A file keeps its place in `unreadable` when it is rewritten, since truncating a file does not change its permissions; a new file created under such a name stays unreadable too, which stands for a creation mode the daemon cannot read back. An `unlink` failure is a name missing from `files` or present in `pinned`. Short reads and write failures after a successful open are not modelled.
- `fork`, `sigaction`, the SIGCHLD handler and process concurrency are not modelled as concurrency. The outcomes of `accept`, `fork` and `waitpid` are given as data. Children exit between rounds, and the handler's sweep runs at the start of the next round. Exit status decoding is not modelled.
- `run_server`'s final `throw cix_exit()` and the child's exit after a connection are not modelled. The connection loop ends with the `End` value.
- The client's `PUT` reads the local file with `tellg` into a stack buffer. An unreadable but openable file, and the `int` size, are not modelled.

## Findings

| source | as written | input that shows it | evidently intended | confidence | as-written member | corrected member |
|---|---|---|---|---|---|---|
| cix.cpp:237-239 | the invalid-command branch does not clear `name_container`, so the invalid word stays at index 0 and selects ERROR for every later line | the line `ecit`, then `exit`: the second line is reported invalid and the session goes on; only end of input still ends it | clear the buffer in this branch too, so each line is dispatched on its own first word | not executed | Client.ExitAfterTypo | Client.FixedForgets |

=== FILE: client.dfy ===
/**
 The cix client's command interpreter: the command table, the splitting of an
 input line into words, and one step of the read-dispatch loop, which either
 ends the session, acts locally, or runs one request/response exchange with
 the daemon. The daemon's side of the connection is the `inbound` stream of
 items the client will receive.
 */
module Client {
  import opened Protocol

  /** The commands of the client's table. */
  predicate Named(c: Command)
  {
    c == EXIT || c == HELP || c == LS || c == GET || c == PUT || c == RM
  }

  /** The word the user types for each command of the table. */
  function Word(c: Command): string
    requires Named(c)
  {
    match c
    case EXIT => "exit"
    case HELP => "help"
    case LS => "ls"
    case GET => "get"
    case PUT => "put"
    case RM => "rm"
  }

  /** The command table: the tag a first word selects, ERROR for any word not in it. */
  function Lookup(word: string): (c: Command)
    ensures c == ERROR || Named(c)
    ensures Named(c) ==> Word(c) == word
    ensures c == ERROR <==> forall t :: Named(t) ==> Word(t) != word
  {
    if word == "exit" then EXIT
    else if word == "help" then HELP
    else if word == "ls" then LS
    else if word == "get" then GET
    else if word == "put" then PUT
    else if word == "rm" then RM
    else ERROR
  }

  /** Each command's word selects that command. */
  lemma WordSelects(c: Command)
    requires Named(c)
    ensures Lookup(Word(c)) == c
  {
  }

  /** Index of the first space of `s`, or `|s|` when there is none. */
  function SpaceAt(s: string): (i: nat)
    ensures i <= |s|
    ensures i < |s| ==> s[i] == ' '
    ensures forall j :: 0 <= j < i ==> s[j] != ' '
  {
    if s == [] || s[0] == ' ' then 0 else 1 + SpaceAt(s[1..])
  }

  /** The pieces that repeated `getline(stream, piece, ' ')` extracts from a
      line: each stops at a space, and none is produced once the text is used
      up, so a trailing space adds no empty piece while inner double spaces do. */
  function Words(line: string): (r: seq<string>)
    ensures forall k :: 0 <= k < |r| ==> ' ' !in r[k]
    ensures r == [] <==> line == []
    decreases |line|
  {
    if line == [] then []
    else
      var i := SpaceAt(line);
      [line[..i]] + Words(if i < |line| then line[i + 1..] else [])
  }

  /** A line without a space is one word. */
  lemma OneWord(w: string)
    requires w != [] && ' ' !in w
    ensures Words(w) == [w]
  {
    assert SpaceAt(w) == |w|;
    assert w[..|w|] == w;
  }

  /** Pieces put back together with one space between neighbours. */
  function Join(ws: seq<string>): string
  {
    if ws == [] then [] else if |ws| == 1 then ws[0] else ws[0] + " " + Join(ws[1..])
  }

  lemma JoinCons(w: string, ws: seq<string>)
    requires ws != []
    ensures Join([w] + ws) == w + " " + Join(ws)
  {
    assert ([w] + ws)[1..] == ws;
  }

  lemma SplitAround(s: string, i: nat)
    requires i < |s| && s[i] == ' '
    ensures s == s[..i] + " " + s[i + 1..]
  {
    assert s[..i] + " " + s[i + 1..] == s[..i] + s[i..];
  }

  /** The first word of a non-empty line, and the text after the space that ends it. */
  lemma WordsUnfold(line: string)
    requires line != []
    ensures var i := SpaceAt(line);
      (i == |line| ==> Words(line) == [line]) &&
      (i < |line| ==> line == line[..i] + " " + line[i + 1..] &&
                      Words(line) == [line[..i]] + Words(line[i + 1..]))
  {
    var i := SpaceAt(line);
    var rest := if i < |line| then line[i + 1..] else [];
    assert Words(line) == [line[..i]] + Words(rest);
    if i == |line| {
      assert line[..i] == line;
      assert Words(rest) == [];
    } else {
      SplitAround(line, i);
    }
  }

  /** Splitting loses nothing but a single trailing space: joining the words
      with single spaces gives the line back. */
  lemma {:induction false} WordsRejoin(line: string)
    ensures line == [] || line[|line| - 1] != ' ' ==> Join(Words(line)) == line
    ensures line != [] && line[|line| - 1] == ' ' ==> Join(Words(line)) + " " == line
  {
    if line != [] {
      var i := SpaceAt(line);
      WordsUnfold(line);
      if i < |line| && i + 1 < |line| {
        var first := line[..i];
        var rest := line[i + 1..];
        var ws := Words(rest);
        JoinCons(first, ws);
        WordsRejoin(rest);
        RejoinStep(line, first, rest, Join(ws));
      }
    }
  }

  /** The text-level step of `WordsRejoin`: putting the first word back in
      front of the rejoined rest. */
  lemma RejoinStep(line: string, first: string, rest: string, joined: string)
    requires rest != [] && line == first + " " + rest
    requires rest[|rest| - 1] != ' ' ==> joined == rest
    requires rest[|rest| - 1] == ' ' ==> joined + " " == rest
    ensures line[|line| - 1] != ' ' ==> first + " " + joined == line
    ensures line[|line| - 1] == ' ' ==> first + " " + joined + " " == line
  {
    assert line[|line| - 1] == rest[|rest| - 1];
    if rest[|rest| - 1] == ' ' {
      assert first + " " + joined + " " == first + " " + (joined + " ");
    }
  }

  /** What `cout << buffer` prints of a received listing: the bytes before the
      first NUL. */
  function CString(bs: Bytes): (r: Bytes)
    ensures r <= bs
    ensures forall i :: 0 <= i < |r| ==> r[i] != 0
    ensures |r| < |bs| ==> bs[|r|] == 0
  {
    if bs == [] || bs[0] == 0 then [] else [bs[0]] + CString(bs[1..])
  }

  /** The six lines `help` prints. */
  const HelpText: seq<string> := [
    "exit         - Exit the program.  Equivalent to EOF.",
    "get filename - Copy remote file to local host.",
    "help         - Print help summary.",
    "ls           - List names of files on remote server.",
    "put filename - Copy local file to remote host.",
    "rm filename  - Remove file from remote server."
  ]

  /** One read of standard input: a line, or end of input (which also covers a
      last line with no newline, since the loop tests for end of file after
      reading it). */
  datatype Input = Line(text: string) | EndOfInput

  /** The loop's state: the words collected so far and the local directory. */
  datatype State = State(tokens: seq<string>, disk: Disk)

  /** What the client writes to the console or its log. */
  datatype Event =
    | Printed(lines: seq<string>)
    | Shown(text: Bytes)
    | Invalid(line: string)
    | Mismatch(sent: Command, reply: Header)
    | Answer(sent: Command, reply: Header)
    | NoLocalFile(name: string)
    | Received(count: nat)

  /** The result of one turn of the loop: the session ends through `cix_exit`,
      or carries on after sending `sent` and consuming the inbound stream up to
      `rest`, or ends through a transport error after sending `sent`. */
  datatype Turn =
    | Quit
    | Continue(state: State, sent: seq<Item>, rest: seq<Item>, events: seq<Event>)
    | Broken(sent: seq<Item>)

  /** The buffer after a line is read: earlier words, then this line's. */
  function Tokens(s: State, text: string): seq<string>
  {
    s.tokens + Words(text)
  }

  /** The loop indexes the buffer without checking its length: a step is
      defined only when word 0 exists and, for get, put and rm, word 1 exists
      and fits the header. */
  predicate Defined(s: State, input: Input)
  {
    input.Line? ==>
      var t := Tokens(s, input.text);
      |t| > 0 && (Lookup(t[0]) == GET || Lookup(t[0]) == PUT || Lookup(t[0]) == RM ==>
                    |t| > 1 && ValidFilename(t[1]))
  }

  /** The command selected by word 0 of the buffer. */
  function Verb(s: State, text: string): Command
    requires |Tokens(s, text)| > 0
  {
    Lookup(Tokens(s, text)[0])
  }

  /** The file a get, put or rm names. */
  function Subject(s: State, text: string): string
  {
    var t := Tokens(s, text);
    if |t| > 1 then t[1] else ""
  }

  /** The request the client sends for a network command: nothing when the
      file to put cannot be opened. */
  function Outgoing(c: Command, name: string, d: Disk): seq<Item>
    requires Served(c)
  {
    match c
    case LS => Frame(Header(LS, 0, ""), [])
    case GET => Frame(Header(GET, 0, name), [])
    case PUT =>
      if Readable(d, name) then Frame(Header(PUT, |d.files[name]|, name), d.files[name]) else []
    case RM => Frame(Header(RM, 0, name), [])
  }

  /** How a network exchange ends: completed, or lost to a transport error. */
  datatype Outcome = Completed(disk: Disk, events: seq<Event>, rest: seq<Item>) | Lost

  /** `cix_ls` once the request is out: a listing is read and shown only when
      the reply is LSOUT. */
  function AwaitListing(d: Disk, inbound: seq<Item>): Outcome
  {
    match RecvHeader(inbound)
    case Got(h, rest) =>
      if h.command != LSOUT then Completed(d, [Mismatch(LS, h)], rest)
      else (
        match RecvBytes(rest, h.nbytes)
        case Got(text, rest') => Completed(d, [Received(h.nbytes), Shown(CString(text))], rest')
        case _ => Lost)
    case _ => Lost
  }

  /** `cix_get` once the request is out: the file is read and stored only when
      the reply is FILEOUT. */
  function AwaitFile(name: string, d: Disk, inbound: seq<Item>): Outcome
  {
    match RecvHeader(inbound)
    case Got(h, rest) =>
      if h.command != FILEOUT then Completed(d, [Mismatch(GET, h)], rest)
      else (
        match RecvBytes(rest, h.nbytes)
        case Got(content, rest') => Completed(Write(d, name, content), [Received(h.nbytes)], rest')
        case _ => Lost)
    case _ => Lost
  }

  /** `cix_put` and `cix_rm` once the request is out: an ACK or a NAK is
      reported, any other reply passes without a word. */
  function AwaitAnswer(sent: Command, d: Disk, inbound: seq<Item>): Outcome
  {
    match RecvHeader(inbound)
    case Got(h, rest) =>
      Completed(d, if h.command == ACK || h.command == NAK then [Answer(sent, h)] else [], rest)
    case _ => Lost
  }

  /** The exchange for a network command. */
  function Converse(c: Command, name: string, d: Disk, inbound: seq<Item>): Outcome
    requires Served(c)
  {
    match c
    case LS => AwaitListing(d, inbound)
    case GET => AwaitFile(name, d, inbound)
    case PUT =>
      if Readable(d, name) then AwaitAnswer(PUT, d, inbound)
      else Completed(d, [NoLocalFile(name)], inbound)
    case RM => AwaitAnswer(RM, d, inbound)
  }

  /** One turn of the loop in `main`. With `clearInvalid` false this is the
      loop as written; with it true the invalid-command branch empties the
      buffer like every other branch. */
  function Dispatch(s: State, input: Input, inbound: seq<Item>, clearInvalid: bool): (r: Turn)
    requires Defined(s, input)
    ensures r.Quit? <==> input.EndOfInput? || Verb(s, input.text) == EXIT
    ensures r.Broken? ==> input.Line? && Served(Verb(s, input.text))
    ensures input.Line? && (Verb(s, input.text) == HELP || Verb(s, input.text) == ERROR) ==>
              r.Continue? && r.sent == [] && r.rest == inbound && r.state.disk == s.disk
    ensures input.Line? && Verb(s, input.text) == HELP ==> r.events == [Printed(HelpText)]
    ensures input.Line? && Verb(s, input.text) == ERROR ==> r.events == [Invalid(input.text)]
    ensures r.Continue? && (clearInvalid || Verb(s, input.text) != ERROR) ==> r.state.tokens == []
    ensures r.Continue? && !clearInvalid && Verb(s, input.text) == ERROR ==>
              r.state.tokens == Tokens(s, input.text)
    ensures r.Continue? && Verb(s, input.text) != GET ==> r.state.disk == s.disk
    ensures r.Continue? ==>
              && r.state.disk.readOnly == s.disk.readOnly && r.state.disk.pinned == s.disk.pinned
              && r.state.disk.unreadable == s.disk.unreadable
    ensures r.Continue? ==>
              r.state.disk.files - {Subject(s, input.text)} == s.disk.files - {Subject(s, input.text)}
  {
    if input.EndOfInput? then Quit
    else
      var t := Tokens(s, input.text);
      var c := Lookup(t[0]);
      if c == EXIT then Quit
      else if c == HELP then Continue(State([], s.disk), [], inbound, [Printed(HelpText)])
      else if c == ERROR then
        Continue(State(if clearInvalid then [] else t, s.disk), [], inbound, [Invalid(input.text)])
      else
        var name := if c == LS then "" else t[1];
        var sent := Outgoing(c, name, s.disk);
        match Converse(c, name, s.disk, inbound)
        case Completed(d, events, rest) => Continue(State([], d), sent, rest, events)
        case Lost => Broken(sent)
  }

  /** The loop as written. */
  function Step(s: State, input: Input, inbound: seq<Item>): Turn
    requires Defined(s, input)
  {
    Dispatch(s, input, inbound, false)
  }

  /** The loop with the buffer cleared after an invalid command as well. */
  function StepFixed(s: State, input: Input, inbound: seq<Item>): Turn
    requires Defined(s, input)
  {
    Dispatch(s, input, inbound, true)
  }

  /** What a step sent, if it got as far as the network. */
  function SentBy(r: Turn): seq<Item>
  {
    match r
    case Quit => []
    case Continue(_, sent, _, _) => sent
    case Broken(sent) => sent
  }

  /** The request goes out before any reply is read, so what is sent does not
      depend on what the daemon answers. */
  lemma SentIgnoresReply(s: State, input: Input, inbound: seq<Item>, other: seq<Item>)
    requires Defined(s, input)
    ensures SentBy(Step(s, input, inbound)) == SentBy(Step(s, input, other))
    ensures Step(s, input, inbound).Quit? == Step(s, input, other).Quit?
  {
  }

  /** A network command's turn is its exchange, after which the buffer is empty. */
  lemma StepExchange(s: State, text: string, inbound: seq<Item>)
    requires Defined(s, Line(text)) && Served(Verb(s, text))
    ensures var c := Verb(s, text);
      var name := if c == LS then "" else Subject(s, text);
      var o := Converse(c, name, s.disk, inbound);
      Step(s, Line(text), inbound) ==
        if o.Lost? then Broken(Outgoing(c, name, s.disk))
        else Continue(State([], o.disk), Outgoing(c, name, s.disk), o.rest, o.events)
  {
  }

  /** `ls`: the request is a bare LS header; the payload is read and shown only
      after an LSOUT, any other reply is logged as a mismatch and nothing more
      is read. */
  lemma ListExchange(s: State, text: string, h: Header, p: Bytes, more: seq<Item>)
    requires Defined(s, Line(text)) && Verb(s, text) == LS
    requires h.command == LSOUT ==> |p| == h.nbytes
    ensures var r := Step(s, Line(text), Frame(h, p) + more);
      r.Continue? && r.sent == [HeaderItem(Header(LS, 0, ""))] && r.state == State([], s.disk) &&
      (h.command == LSOUT ==> r.rest == more && r.events == [Received(|p|), Shown(CString(p))]) &&
      (h.command != LSOUT ==> r.rest == Data(p) + more && r.events == [Mismatch(LS, h)])
  {
    ListingAwaited(s.disk, h, p, more);
    ListStep(s, text, Frame(h, p) + more);
  }

  /** An `ls` turn whose listing arrives is that listing's outcome. */
  lemma ListStep(s: State, text: string, inbound: seq<Item>)
    requires Defined(s, Line(text)) && Verb(s, text) == LS
    requires AwaitListing(s.disk, inbound).Completed?
    ensures var o := AwaitListing(s.disk, inbound);
      Step(s, Line(text), inbound) ==
        Continue(State([], o.disk), [HeaderItem(Header(LS, 0, ""))], o.rest, o.events)
  {
    assert Outgoing(LS, "", s.disk) == [HeaderItem(Header(LS, 0, ""))] by {
      assert Data([]) == [];
    }
    StepExchange(s, text, inbound);
  }

  lemma ListingAwaited(d: Disk, h: Header, p: Bytes, more: seq<Item>)
    requires h.command == LSOUT ==> |p| == h.nbytes
    ensures h.command == LSOUT ==>
              AwaitListing(d, Frame(h, p) + more) == Completed(d, [Received(|p|), Shown(CString(p))], more)
    ensures h.command != LSOUT ==>
              AwaitListing(d, Frame(h, p) + more) == Completed(d, [Mismatch(LS, h)], Data(p) + more)
  {
    RecvFrame(h, p, more);
  }

  /** `get f`: a FILEOUT makes the local f exactly the received bytes, whatever
      it held before; any other reply changes nothing and reads no payload. */
  lemma GetExchange(s: State, text: string, h: Header, p: Bytes, more: seq<Item>)
    requires Defined(s, Line(text)) && Verb(s, text) == GET
    requires h.command == FILEOUT ==> |p| == h.nbytes
    ensures var r := Step(s, Line(text), Frame(h, p) + more);
      var f := Subject(s, text);
      r.Continue? && r.sent == [HeaderItem(Header(GET, 0, f))] && r.state.tokens == [] &&
      (h.command == FILEOUT ==>
         r.rest == more && r.events == [Received(|p|)] &&
         (f !in s.disk.readOnly ==> f in r.state.disk.files && r.state.disk.files[f] == p) &&
         (f in s.disk.readOnly ==> r.state.disk == s.disk)) &&
      (h.command != FILEOUT ==>
         r.rest == Data(p) + more && r.events == [Mismatch(GET, h)] && r.state.disk == s.disk)
  {
    RecvFrame(h, p, more);
    StepExchange(s, text, Frame(h, p) + more);
  }

  /** `put f`: with no readable local f nothing is sent and the session goes on; otherwise
      the header carries f's size and is followed by all of f, and an ACK or a
      NAK is reported. The reply's own payload, if any, is not read. */
  lemma PutExchange(s: State, text: string, h: Header, p: Bytes, more: seq<Item>)
    requires Defined(s, Line(text)) && Verb(s, text) == PUT
    ensures var r := Step(s, Line(text), Frame(h, p) + more);
      var f := Subject(s, text);
      r.Continue? && r.state == State([], s.disk) &&
      (!Readable(s.disk, f) ==>
         r.sent == [] && r.rest == Frame(h, p) + more && r.events == [NoLocalFile(f)]) &&
      (Readable(s.disk, f) ==>
         r.sent == Frame(Header(PUT, |s.disk.files[f]|, f), s.disk.files[f]) &&
         r.rest == Data(p) + more &&
         r.events == (if h.command == ACK || h.command == NAK then [Answer(PUT, h)] else []))
  {
    RecvFrame(h, p, more);
    StepExchange(s, text, Frame(h, p) + more);
  }

  /** `rm f`: a bare RM header naming f goes out; ACK and NAK are reported. */
  lemma RemoveExchange(s: State, text: string, h: Header, p: Bytes, more: seq<Item>)
    requires Defined(s, Line(text)) && Verb(s, text) == RM
    ensures var r := Step(s, Line(text), Frame(h, p) + more);
      r.Continue? && r.state == State([], s.disk) &&
      r.sent == [HeaderItem(Header(RM, 0, Subject(s, text)))] && r.rest == Data(p) + more &&
      r.events == (if h.command == ACK || h.command == NAK then [Answer(RM, h)] else [])
  {
    RecvFrame(h, p, more);
    StepExchange(s, text, Frame(h, p) + more);
  }

  /** A network command whose reply never comes ends the session through the
      transport-error path, after the request was sent. */
  lemma ClosedConnection(s: State, text: string)
    requires Defined(s, Line(text)) && Served(Verb(s, text))
    requires Verb(s, text) == PUT ==> Readable(s.disk, Subject(s, text))
    ensures Step(s, Line(text), []).Broken?
    ensures SentBy(Step(s, Line(text), [])) != []
  {
  }

  /** A buffer whose word 0 is not a command, or an empty one. */
  predicate Stale(s: State)
  {
    s.tokens == [] || Lookup(s.tokens[0]) == ERROR
  }

  /** Every state the loop as written reaches has an empty buffer or one that
      starts with an invalid word. */
  lemma StepKeepsStale(s: State, input: Input, inbound: seq<Item>)
    requires Defined(s, input) && Stale(s)
    ensures var r := Step(s, input, inbound); r.Continue? ==> Stale(r.state)
  {
  }

  /** Once a line starts with an invalid word the buffer keeps that word at
      index 0, so every later line, `exit` included, is reported invalid and
      sends nothing; only end of input still ends the session. */
  lemma InvalidSticks(s: State, text: string, inbound: seq<Item>, next: string, later: seq<Item>)
    requires Defined(s, Line(text)) && Verb(s, text) == ERROR
    ensures var r := Step(s, Line(text), inbound);
      r.Continue? && Defined(r.state, Line(next)) && Verb(r.state, next) == ERROR &&
      Step(r.state, Line(next), later) ==
        Continue(State(r.state.tokens + Words(next), s.disk), [], later, [Invalid(next)])
  {
    var r := Step(s, Line(text), inbound);
    assert r.state.tokens == Tokens(s, text);
    assert Tokens(r.state, next)[0] == Tokens(s, text)[0];
  }

  /** The counterexample: after the typo `ecit`, typing `exit` does not quit. */
  lemma ExitAfterTypo(d: Disk, inbound: seq<Item>)
    ensures var r := Step(State([], d), Line("ecit"), inbound);
      r.Continue? && Defined(r.state, Line("exit")) &&
      Step(r.state, Line("exit"), inbound).Continue?
  {
    OneWord("ecit");
    OneWord("exit");
    InvalidSticks(State([], d), "ecit", inbound, "exit", inbound);
  }

  /** The corrected loop agrees with the loop as written on every line whose
      word 0 is a command. */
  lemma FixedAgrees(s: State, input: Input, inbound: seq<Item>)
    requires Defined(s, input) && (input.Line? ==> Verb(s, input.text) != ERROR)
    ensures StepFixed(s, input, inbound) == Step(s, input, inbound)
  {
  }

  /** With the fix, each line is dispatched on its own first word: from an empty
      buffer every step leaves the buffer empty, so an invalid line does not
      affect the next one. */
  lemma FixedForgets(s: State, input: Input, inbound: seq<Item>, next: string)
    requires Defined(s, input) && s.tokens == []
    requires Words(next) != []
    ensures var r := StepFixed(s, input, inbound);
      r.Continue? ==> r.state.tokens == [] && Verb(r.state, next) == Lookup(Words(next)[0])
  {
  }
}

=== FILE: daemon.dfy ===
/**
 The cixd request handler: the four `reply_*` functions acting on the daemon's
 directory, and the `run_server` loop that reads one request header at a time
 from a connection and answers it. The output of `ls -l` (or the failure to
 start it) is supplied by the `lister` parameter.
 */
module Daemon {
  import opened Protocol

  /** What running the listing command gives: its captured output, or the
      errno of a failed launch. */
  datatype Listing = Listing(output: Bytes) | PopenFailed(errno: nat)

  /** A response: the header sent back and the payload after it. */
  datatype Reply = Reply(header: Header, payload: Bytes)

  /** A reply and the daemon's directory after producing it. */
  datatype Effect = Effect(reply: Reply, disk: Disk)

  /** The reply's items on the wire. */
  function Wire(r: Reply): seq<Item>
  {
    Frame(r.header, r.payload)
  }

  /** What every reply to a request promises: an admissible tag, a payload that
      matches `nbytes`, and, except for a listing, the request's filename. */
  predicate Answers(request: Header, r: Reply)
  {
    && Served(request.command)
    && r.header.command in Admissible(request.command)
    && Framed(r.header, r.payload)
    && (request.command != LS ==> r.header.filename == request.filename)
  }

  /** `reply_ls`: the listing as an LSOUT payload under a blank filename, or a
      NAK carrying errno in `nbytes` when the command cannot be started. */
  function ReplyLs(request: Header, listing: Listing): (r: Reply)
    ensures request.command == LS ==> Answers(request, r)
    ensures r.header.command == LSOUT <==> listing.Listing?
    ensures listing.Listing? ==> r.payload == listing.output && r.header.filename == ""
    ensures listing.PopenFailed? ==>
              r.payload == [] && r.header == request.(command := NAK, nbytes := listing.errno)
  {
    match listing
    case Listing(output) => Reply(Header(LSOUT, |output|, ""), output)
    case PopenFailed(errno) => Reply(request.(command := NAK, nbytes := errno), [])
  }

  /** `reply_get`: the whole file as a FILEOUT payload, or a NAK when it cannot
      be opened for reading (missing or unreadable); the directory is not
      touched. */
  function ReplyGet(request: Header, d: Disk): (r: Reply)
    ensures request.command == GET ==> Answers(request, r)
    ensures r.header.command == FILEOUT <==> Readable(d, request.filename)
    ensures r.header.command == FILEOUT ==>
              r.payload == d.files[request.filename] && r.header.nbytes == |r.payload|
    ensures r.header.command != FILEOUT ==> r == Reply(request.(command := NAK), [])
  {
    if Readable(d, request.filename) then
      var content := d.files[request.filename];
      Reply(request.(command := FILEOUT, nbytes := |content|), content)
    else
      Reply(request.(command := NAK), [])
  }

  /** `reply_put` once the payload is in: the destination becomes exactly the
      payload and the answer is ACK, or it cannot be opened and the answer is
      NAK with nothing changed. Only the tag of the request header changes. */
  function ReplyPut(request: Header, payload: Bytes, d: Disk): (r: Effect)
    ensures request.command == PUT ==> Answers(request, r.reply)
    ensures r.reply.header == request.(command := r.reply.header.command) && r.reply.payload == []
    ensures r.reply.header.command == ACK <==> request.filename !in d.readOnly
    ensures r.reply.header.command == ACK ==>
              && request.filename in r.disk.files && r.disk.files[request.filename] == payload
              && r.disk.files - {request.filename} == d.files - {request.filename}
              && r.disk.readOnly == d.readOnly && r.disk.pinned == d.pinned
              && r.disk.unreadable == d.unreadable
    ensures r.reply.header.command != ACK ==> r.disk == d
  {
    if request.filename in d.readOnly then
      Effect(Reply(request.(command := NAK), []), d)
    else
      Effect(Reply(request.(command := ACK), []), Write(d, request.filename, payload))
  }

  /** `reply_rm`: the answer is ACK exactly when `unlink` succeeds, that is for
      an existing file that may be removed, which is then gone; when it fails
      the answer is NAK and nothing changes. Only the tag of the request header
      changes. */
  function ReplyRm(request: Header, d: Disk): (r: Effect)
    ensures request.command == RM ==> Answers(request, r.reply)
    ensures r.reply.header == request.(command := r.reply.header.command) && r.reply.payload == []
    ensures r.reply.header.command == ACK <==> request.filename in d.files && request.filename !in d.pinned
    ensures r.reply.header.command == ACK ==>
              && request.filename !in r.disk.files
              && r.disk.files - {request.filename} == d.files - {request.filename}
              && r.disk.readOnly == d.readOnly && r.disk.pinned == d.pinned
              && r.disk.unreadable == d.unreadable
    ensures r.reply.header.command != ACK ==> r.disk == d
  {
    if request.filename in d.files && request.filename !in d.pinned then
      Effect(Reply(request.(command := ACK), []), d.(files := d.files - {request.filename}))
    else
      Effect(Reply(request.(command := NAK), []), d)
  }

  /** Why a connection's loop stops: the client closed it, the transport failed
      in the middle of a payload, or a payload byte stood where a header was
      due. */
  datatype End = Disconnected | Failed | Desynchronised

  /** What the dispatch does with one request header. */
  datatype Handled =
    | Replied(reply: Reply, disk: Disk, rest: seq<Item>)
    | Ignored
    | Hangup(end: End)

  /** The switch in `run_server`: the four requests are answered, every other
      tag is logged and ignored. A PUT first takes its `nbytes` payload bytes
      from the connection, whatever the answer will be. */
  function Handle(request: Header, inbound: seq<Item>, d: Disk, lister: FileSystem -> Listing): (r: Handled)
    ensures r.Ignored? <==> !Served(request.command)
    ensures r.Hangup? ==> request.command == PUT && r.end != Disconnected
    ensures r.Replied? ==> Answers(request, r.reply) && |r.rest| <= |inbound|
    ensures r.Replied? ==>
              r.disk.readOnly == d.readOnly && r.disk.pinned == d.pinned && r.disk.unreadable == d.unreadable
    ensures r.Replied? && request.command != PUT ==> r.rest == inbound
    ensures r.Replied? && (request.command == LS || request.command == GET) ==> r.disk == d
  {
    match request.command
    case LS => Replied(ReplyLs(request, lister(d.files)), d, inbound)
    case GET => Replied(ReplyGet(request, d), d, inbound)
    case PUT =>
      (match RecvBytes(inbound, request.nbytes)
       case Got(payload, rest) =>
         var e := ReplyPut(request, payload, d);
         Replied(e.reply, e.disk, rest)
       case Closed => Hangup(Failed)
       case Misframed => Hangup(Desynchronised))
    case RM =>
      var e := ReplyRm(request, d);
      Replied(e.reply, e.disk, inbound)
    case _ => Ignored
  }

  /** One request read by the loop, with the reply sent for it, if any. */
  datatype Exchange = Exchange(request: Header, reply: Option<Reply>)

  /** A logged exchange is answered exactly when its tag is one of the four, and
      then properly. */
  predicate Proper(e: Exchange)
  {
    (e.reply.Some? <==> Served(e.request.command)) &&
    (e.reply.Some? ==> Answers(e.request, e.reply.value))
  }

  /** A connection's whole life: the directory at the end, the exchanges in
      order, and why it stopped. */
  datatype Session = Session(disk: Disk, log: seq<Exchange>, end: End)

  function Prepend(e: Exchange, s: Session): Session
  {
    s.(log := [e] + s.log)
  }

  /** The loop of `run_server` over everything the client sends. */
  function Serve(d: Disk, inbound: seq<Item>, lister: FileSystem -> Listing): (r: Session)
    ensures forall i :: 0 <= i < |r.log| ==> Proper(r.log[i])
    ensures r.disk.readOnly == d.readOnly && r.disk.pinned == d.pinned && r.disk.unreadable == d.unreadable
    ensures |r.log| <= |inbound|
    decreases |inbound|
  {
    match RecvHeader(inbound)
    case Closed => Session(d, [], Disconnected)
    case Misframed => Session(d, [], Desynchronised)
    case Got(h, rest) =>
      match Handle(h, rest, d, lister)
      case Ignored => Prepend(Exchange(h, None), Serve(d, rest, lister))
      case Hangup(end) => Session(d, [], end)
      case Replied(reply, d', rest') => Prepend(Exchange(h, Some(reply)), Serve(d', rest', lister))
  }

  /** The stream stays framed across a PUT: exactly `nbytes` bytes are taken
      before the destination is opened, so the next request is read from the
      right place whether the answer is ACK or NAK. */
  lemma PutStaysFramed(request: Header, payload: Bytes, more: seq<Item>, d: Disk,
                       lister: FileSystem -> Listing)
    requires request.command == PUT && |payload| == request.nbytes
    ensures var r := Handle(request, Data(payload) + more, d, lister);
      r.Replied? && r.rest == more &&
      r.reply == ReplyPut(request, payload, d).reply && r.disk == ReplyPut(request, payload, d).disk
  {
    RecvBytesOfData(payload, more);
  }

  /** A request framed with its payload is handled first and the loop goes on
      with exactly what follows it. */
  lemma ServeFirst(d: Disk, h: Header, payload: Bytes, more: seq<Item>,
                   lister: FileSystem -> Listing)
    requires h.command == PUT ==> |payload| == h.nbytes
    requires h.command != PUT ==> payload == []
    ensures Served(h.command) ==>
              var r := Handle(h, Data(payload) + more, d, lister);
              r.Replied? && r.rest == more &&
              Serve(d, Frame(h, payload) + more, lister) ==
                Prepend(Exchange(h, Some(r.reply)), Serve(r.disk, more, lister))
    ensures !Served(h.command) ==>
              Serve(d, Frame(h, payload) + more, lister) ==
                Prepend(Exchange(h, None), Serve(d, more, lister))
  {
    RecvFrame(h, payload, more);
    if h.command == PUT {
      PutStaysFramed(h, payload, more, d, lister);
    } else {
      assert Data(payload) + more == more;
    }
  }

  /** One turn of the loop, once the handler's outcome for the first request is known. */
  lemma ServeNext(d: Disk, h: Header, payload: Bytes, more: seq<Item>,
                  lister: FileSystem -> Listing, reply: Reply, d': Disk)
    requires Handle(h, Data(payload) + more, d, lister) == Replied(reply, d', more)
    ensures Serve(d, Frame(h, payload) + more, lister) ==
              Prepend(Exchange(h, Some(reply)), Serve(d', more, lister))
  {
    RecvFrame(h, payload, more);
  }

  /** After a PUT of f is acknowledged, a GET of f returns exactly the bytes put,
      unless f may not be read, when it is refused. An RM of f is then
      acknowledged exactly when f may be unlinked; after an ACK a further GET
      is refused, after a NAK it is answered as the first one was. */
  lemma PutGetRemoveGet(d: Disk, put: Header, payload: Bytes, get: Header, rm: Header)
    requires put.command == PUT && get.command == GET && rm.command == RM
    requires get.filename == put.filename && rm.filename == put.filename
    requires ReplyPut(put, payload, d).reply.header.command == ACK
    ensures var d1 := ReplyPut(put, payload, d).disk;
      var g := ReplyGet(get, d1);
      var e := ReplyRm(rm, d1);
      var g' := ReplyGet(get, e.disk);
      && (put.filename !in d.unreadable ==>
            g.header.command == FILEOUT && g.header.nbytes == |payload| && g.payload == payload)
      && (put.filename in d.unreadable ==> g == Reply(get.(command := NAK), []))
      && (e.reply.header.command == ACK <==> put.filename !in d.pinned)
      && (e.reply.header.command == ACK ==> g'.header.command == NAK)
      && (e.reply.header.command != ACK ==> g' == g)
  {
  }

  /** The last GET of a connection, then the client hangs up. */
  lemma ServeLastGet(d: Disk, f: string, lister: FileSystem -> Listing)
    ensures Serve(d, Frame(Header(GET, 0, f), []), lister) ==
              Session(d, [Exchange(Header(GET, 0, f), Some(ReplyGet(Header(GET, 0, f), d)))], Disconnected)
  {
    var g := ReplyGet(Header(GET, 0, f), d);
    assert Handle(Header(GET, 0, f), Data([]) + [], d, lister) == Replied(g, d, []);
    ServeNext(d, Header(GET, 0, f), [], [], lister, g, d);
    assert Frame(Header(GET, 0, f), []) + [] == Frame(Header(GET, 0, f), []);
    assert Serve(d, [], lister) == Session(d, [], Disconnected);
  }

  /** An RM of f, a GET of f, then the client hangs up. */
  lemma ServeRemoveThenGet(d: Disk, f: string, lister: FileSystem -> Listing)
    ensures var e := ReplyRm(Header(RM, 0, f), d);
      Serve(d, Frame(Header(RM, 0, f), []) + Frame(Header(GET, 0, f), []), lister) ==
        Session(e.disk,
                [Exchange(Header(RM, 0, f), Some(e.reply)),
                 Exchange(Header(GET, 0, f), Some(ReplyGet(Header(GET, 0, f), e.disk)))],
                Disconnected)
  {
    var e := ReplyRm(Header(RM, 0, f), d);
    var get := Frame(Header(GET, 0, f), []);
    ServeLastGet(e.disk, f, lister);
    RmHandled(d, f, get, lister);
    ServeNext(d, Header(RM, 0, f), [], get, lister, e.reply, e.disk);
  }

  lemma RmHandled(d: Disk, f: string, more: seq<Item>, lister: FileSystem -> Listing)
    ensures var e := ReplyRm(Header(RM, 0, f), d);
      Handle(Header(RM, 0, f), Data([]) + more, d, lister) == Replied(e.reply, e.disk, more)
  {
    assert Data([]) + more == more;
  }

  lemma GetHandled(d: Disk, f: string, more: seq<Item>, lister: FileSystem -> Listing)
    ensures Handle(Header(GET, 0, f), Data([]) + more, d, lister) ==
              Replied(ReplyGet(Header(GET, 0, f), d), d, more)
  {
    assert Data([]) + more == more;
  }

  /** The last three requests of `ServeScript`: GET, RM, GET of f. */
  lemma ServeScriptTail(d1: Disk, f: string, lister: FileSystem -> Listing)
    ensures var e := ReplyRm(Header(RM, 0, f), d1);
      Serve(d1, Frame(Header(GET, 0, f), []) +
                (Frame(Header(RM, 0, f), []) + Frame(Header(GET, 0, f), [])), lister) ==
        Session(e.disk,
                [Exchange(Header(GET, 0, f), Some(ReplyGet(Header(GET, 0, f), d1))),
                 Exchange(Header(RM, 0, f), Some(e.reply)),
                 Exchange(Header(GET, 0, f), Some(ReplyGet(Header(GET, 0, f), e.disk)))],
                Disconnected)
  {
    var more := Frame(Header(RM, 0, f), []) + Frame(Header(GET, 0, f), []);
    ServeRemoveThenGet(d1, f, lister);
    GetHandled(d1, f, more, lister);
    ServeNext(d1, Header(GET, 0, f), [], more, lister, ReplyGet(Header(GET, 0, f), d1), d1);
  }

  /** The first request of `ServeScript`: the PUT is acknowledged with its own
      size and the loop goes on with the rest. */
  lemma ServeScriptHead(d: Disk, f: string, b: Bytes, tail: seq<Item>, lister: FileSystem -> Listing)
    requires f !in d.readOnly
    ensures Serve(d, Frame(Header(PUT, |b|, f), b) + tail, lister) ==
              Prepend(Exchange(Header(PUT, |b|, f), Some(Reply(Header(ACK, |b|, f), []))),
                      Serve(d.(files := d.files[f := b]), tail, lister))
  {
    var d1 := d.(files := d.files[f := b]);
    PutStaysFramed(Header(PUT, |b|, f), b, tail, d, lister);
    assert Handle(Header(PUT, |b|, f), Data(b) + tail, d, lister) ==
           Replied(Reply(Header(ACK, |b|, f), []), d1, tail);
    ServeNext(d, Header(PUT, |b|, f), b, tail, lister, Reply(Header(ACK, |b|, f), []), d1);
  }

  /** The same at the level of a whole connection: a client that sends PUT f,
      GET f, RM f, GET f and hangs up receives ACK (still carrying the PUT's
      size), then FILEOUT with the bytes, or NAK when f may not be read. When
      f may be unlinked it then gets ACK and NAK and f is gone at the end; when
      it may not, NAK and the first GET's answer again, and f stays. */
  lemma ServeScript(d: Disk, f: string, b: Bytes, lister: FileSystem -> Listing)
    requires f !in d.readOnly
    ensures var s := Serve(d, Frame(Header(PUT, |b|, f), b) + Frame(Header(GET, 0, f), []) +
                              Frame(Header(RM, 0, f), []) + Frame(Header(GET, 0, f), []), lister);
      && s.end == Disconnected
      && |s.log| == 4
      && s.log[0] == Exchange(Header(PUT, |b|, f), Some(Reply(Header(ACK, |b|, f), [])))
      && (f !in d.unreadable ==>
            s.log[1] == Exchange(Header(GET, 0, f), Some(Reply(Header(FILEOUT, |b|, f), b))))
      && (f in d.unreadable ==>
            s.log[1] == Exchange(Header(GET, 0, f), Some(Reply(Header(NAK, 0, f), []))))
      && (f !in d.pinned ==>
            && s.disk == d.(files := d.files - {f})
            && s.log[2] == Exchange(Header(RM, 0, f), Some(Reply(Header(ACK, 0, f), [])))
            && s.log[3] == Exchange(Header(GET, 0, f), Some(Reply(Header(NAK, 0, f), []))))
      && (f in d.pinned ==>
            && s.disk == d.(files := d.files[f := b])
            && s.log[2] == Exchange(Header(RM, 0, f), Some(Reply(Header(NAK, 0, f), [])))
            && s.log[3] == s.log[1])
  {
    var get := Frame(Header(GET, 0, f), []);
    var rm := Frame(Header(RM, 0, f), []);
    var put := Frame(Header(PUT, |b|, f), b);
    var tail := get + (rm + get);
    var d1 := d.(files := d.files[f := b]);
    assert put + get + rm + get == put + tail;
    ServeScriptHead(d, f, b, tail, lister);
    ServeScriptTail(d1, f, lister);
    ScriptOutcome(d, f, b, Serve(d, put + tail, lister));
  }

  /** The log of `ServeScript` in each case of RM, from the generic form the
      two halves give. */
  lemma ScriptOutcome(d: Disk, f: string, b: Bytes, s: Session)
    requires var d1 := d.(files := d.files[f := b]);
      var e := ReplyRm(Header(RM, 0, f), d1);
      s == Prepend(Exchange(Header(PUT, |b|, f), Some(Reply(Header(ACK, |b|, f), []))),
                   Session(e.disk,
                           [Exchange(Header(GET, 0, f), Some(ReplyGet(Header(GET, 0, f), d1))),
                            Exchange(Header(RM, 0, f), Some(e.reply)),
                            Exchange(Header(GET, 0, f), Some(ReplyGet(Header(GET, 0, f), e.disk)))],
                           Disconnected))
    ensures && s.end == Disconnected
      && |s.log| == 4
      && s.log[0] == Exchange(Header(PUT, |b|, f), Some(Reply(Header(ACK, |b|, f), [])))
      && (f !in d.unreadable ==>
            s.log[1] == Exchange(Header(GET, 0, f), Some(Reply(Header(FILEOUT, |b|, f), b))))
      && (f in d.unreadable ==>
            s.log[1] == Exchange(Header(GET, 0, f), Some(Reply(Header(NAK, 0, f), []))))
      && (f !in d.pinned ==>
            && s.disk == d.(files := d.files - {f})
            && s.log[2] == Exchange(Header(RM, 0, f), Some(Reply(Header(ACK, 0, f), [])))
            && s.log[3] == Exchange(Header(GET, 0, f), Some(Reply(Header(NAK, 0, f), []))))
      && (f in d.pinned ==>
            && s.disk == d.(files := d.files[f := b])
            && s.log[2] == Exchange(Header(RM, 0, f), Some(Reply(Header(NAK, 0, f), [])))
            && s.log[3] == s.log[1])
  {
    var d1 := d.(files := d.files[f := b]);
    if f !in d.pinned {
      assert d1.(files := d1.files - {f}) == d.(files := d.files - {f});
    }
  }
}

=== FILE: endtoend.dfy ===
/**
 The client and the daemon joined by one connection: a command line is turned
 into a request by the client (with the buffer fix applied), the daemon handles
 it against its own directory, and the client takes the reply.
 */
module EndToEnd {
  import opened Protocol
  import Client
  import Daemon

  /** What the daemon makes of a request: the items it sends back, its
      directory afterwards, and what it leaves unread of the request. */
  datatype Remote = Remote(reply: seq<Item>, disk: Disk, unread: seq<Item>)

  function Respond(sent: seq<Item>, server: Disk, lister: FileSystem -> Daemon.Listing): Remote
  {
    match RecvHeader(sent)
    case Got(h, rest) =>
      (match Daemon.Handle(h, rest, server, lister)
       case Replied(reply, d, rest') => Remote(Daemon.Wire(reply), d, rest')
       case Ignored => Remote([], server, rest)
       case Hangup(_) => Remote([], server, []))
    case _ => Remote([], server, sent)
  }

  /** The request a network command line produces. */
  function Request(s: Client.State, text: string): seq<Item>
    requires Client.Defined(s, Client.Line(text)) && Served(Client.Verb(s, text))
  {
    var c := Client.Verb(s, text);
    Client.Outgoing(c, if c == LS then "" else Client.Subject(s, text), s.disk)
  }

  /** One command line played over the connection: the client's turn, the
      daemon's directory after it, the daemon's reply, and what the daemon left
      unread of the request. */
  datatype Played = Played(client: Client.Turn, server: Disk, reply: seq<Item>, unread: seq<Item>)

  function Play(s: Client.State, text: string, server: Disk,
                lister: FileSystem -> Daemon.Listing): Played
    requires Client.Defined(s, Client.Line(text)) && Served(Client.Verb(s, text))
  {
    var remote := Respond(Request(s, text), server, lister);
    Played(Client.StepFixed(s, Client.Line(text), remote.reply), remote.disk, remote.reply, remote.unread)
  }

  /** A command word and a filename typed with one space between them split
      into exactly those two words. */
  lemma WordsOfCommand(w: string, f: string)
    requires w != [] && ' ' !in w && f != [] && ' ' !in f
    ensures Client.Words(w + " " + f) == [w, f]
  {
    var line := w + " " + f;
    assert Client.SpaceAt(line) == |w| by {
      assert line[|w|] == ' ';
      SpaceAtPrefix(w, " " + f);
    }
    assert line[..|w|] == w;
    assert line[|w| + 1..] == f;
    assert Client.SpaceAt(f) == |f| by {
      SpaceAtPrefix(f, []);
      assert f + [] == f;
    }
    assert f[..|f|] == f;
  }

  lemma {:induction false} SpaceAtPrefix(a: string, b: string)
    requires ' ' !in a && (b == [] || b[0] == ' ')
    ensures Client.SpaceAt(a + b) == |a|
  {
    if a != [] {
      assert (a + b)[1..] == a[1..] + b;
      SpaceAtPrefix(a[1..], b);
    } else {
      assert a + b == b;
    }
  }

  /** A line that reads as command `c` applied to `f`, typed into a client whose
      buffer is empty (`WordsOfCommand` shows `"get " + f` is one). */
  predicate Reads(s: Client.State, text: string, c: Command, f: string)
  {
    Client.Named(c) && s.tokens == [] && Client.Words(text) == [Client.Word(c), f] && ValidFilename(f)
  }

  lemma ReadsAs(s: Client.State, text: string, c: Command, f: string)
    requires Reads(s, text, c, f)
    ensures Client.Tokens(s, text) == [Client.Word(c), f]
    ensures Client.Defined(s, Client.Line(text)) && Client.Verb(s, text) == c
    ensures Client.Subject(s, text) == f
  {
    assert Client.Tokens(s, text) == [] + [Client.Word(c), f];
  }

  /** The daemon's reply is framed and admissible, and the client reads exactly
      that reply and nothing more: after every network command both ends of the
      connection agree on where the next message starts. */
  lemma PlayStaysFramed(s: Client.State, text: string, server: Disk,
                        lister: FileSystem -> Daemon.Listing)
    requires Client.Defined(s, Client.Line(text)) && Served(Client.Verb(s, text))
    requires Client.Verb(s, text) == PUT ==> Readable(s.disk, Client.Subject(s, text))
    ensures var r := Play(s, text, server, lister);
      r.unread == [] && r.client.Continue? && r.client.rest == [] &&
      RecvHeader(r.reply).Got? &&
      RecvHeader(r.reply).value.command in Admissible(Client.Verb(s, text))
  {
    var c := Client.Verb(s, text);
    var f := Client.Subject(s, text);
    var sent := Request(s, text);
    var h, p;
    if c == PUT {
      var b := s.disk.files[f];
      h, p := Header(PUT, |b|, f), b;
    } else {
      h, p := Header(c, 0, if c == LS then "" else f), [];
    }
    assert sent == Frame(h, p) + [];
    RecvFrame(h, p, []);
    var handled := Daemon.Handle(h, Data(p) + [], server, lister);
    if c == PUT {
      Daemon.PutStaysFramed(h, p, [], server, lister);
    }
    assert handled.Replied? && handled.rest == [];
    var reply := handled.reply;
    var wire := Daemon.Wire(reply);
    assert Respond(sent, server, lister) == Remote(wire, handled.disk, []);
    assert wire == Frame(reply.header, reply.payload) + [];
    RecvFrame(reply.header, reply.payload, []);
    Client.FixedAgrees(s, Client.Line(text), wire);
    if c == LS {
      Client.ListExchange(s, text, reply.header, reply.payload, []);
    } else if c == GET {
      Client.GetExchange(s, text, reply.header, reply.payload, []);
    } else if c == PUT {
      Client.PutExchange(s, text, reply.header, reply.payload, []);
    } else {
      Client.RemoveExchange(s, text, reply.header, reply.payload, []);
    }
  }

  /** `ls`: the daemon answers with the listing of its directory under LSOUT,
      which the client shows up to its first NUL byte, or with a NAK carrying
      errno when the listing command cannot be started, which the client logs
      as a mismatch. Neither directory changes. */
  lemma LsPlayed(c: Client.State, text: string, server: Disk, lister: FileSystem -> Daemon.Listing)
    requires Client.Defined(c, Client.Line(text)) && Client.Verb(c, text) == LS
    ensures var r := Play(c, text, server, lister);
      && Request(c, text) == Frame(Header(LS, 0, ""), [])
      && r.server == server && r.unread == []
      && r.client.Continue? && r.client.state == Client.State([], c.disk)
      && (lister(server.files).Listing? ==>
            var out := lister(server.files).output;
            r.reply == Frame(Header(LSOUT, |out|, ""), out) &&
            r.client.events == [Client.Received(|out|), Client.Shown(Client.CString(out))])
      && (lister(server.files).PopenFailed? ==>
            var nak := Header(NAK, lister(server.files).errno, "");
            r.reply == Frame(nak, []) && r.client.events == [Client.Mismatch(LS, nak)])
  {
    var lh := Header(LS, 0, "");
    assert Request(c, text) == Frame(lh, []) + [];
    RecvFrame(lh, [], []);
    var reply := Daemon.ReplyLs(lh, lister(server.files));
    assert Respond(Request(c, text), server, lister) == Remote(Daemon.Wire(reply), server, []);
    RecvFrame(reply.header, reply.payload, []);
    assert Daemon.Wire(reply) == Frame(reply.header, reply.payload) + [];
    Client.FixedAgrees(c, Client.Line(text), Daemon.Wire(reply));
    Client.ListExchange(c, text, reply.header, reply.payload, []);
  }

  /** `put f` from a client holding a readable f: the request is f's size and bytes, the
      daemon stores exactly those bytes and answers ACK still carrying the
      size, and the client reports it with its own files unchanged. */
  lemma PutPlayed(c: Client.State, put: string, f: string, server: Disk,
                  lister: FileSystem -> Daemon.Listing)
    requires Reads(c, put, PUT, f) && Readable(c.disk, f) && f !in server.readOnly
    ensures var b := c.disk.files[f];
      var r := Play(c, put, server, lister);
      && Request(c, put) == Frame(Header(PUT, |b|, f), b)
      && r.server == server.(files := server.files[f := b])
      && r.reply == Frame(Header(ACK, |b|, f), [])
      && r.unread == []
      && r.client == Client.Continue(Client.State([], c.disk), Request(c, put), [],
                                     [Client.Answer(PUT, Header(ACK, |b|, f))])
  {
    ReadsAs(c, put, PUT, f);
    var b := c.disk.files[f];
    var ph := Header(PUT, |b|, f);
    assert Request(c, put) == Frame(ph, b) + [];
    RecvFrame(ph, b, []);
    Daemon.PutStaysFramed(ph, b, [], server, lister);
    var server1 := server.(files := server.files[f := b]);
    var ack := Header(ACK, |b|, f);
    assert Respond(Request(c, put), server, lister) == Remote(Frame(ack, []), server1, []);
    RecvFrame(ack, [], []);
    assert Frame(ack, []) == Frame(ack, []) + [];
    Client.FixedAgrees(c, Client.Line(put), Frame(ack, []));
    Client.PutExchange(c, put, ack, [], []);
  }

  /** `get f` of a file the daemon can read: the reply is FILEOUT with the file's
      size and bytes, the daemon changes nothing, and the client's f becomes
      exactly those bytes with no other local file touched. */
  lemma GetPlayed(c: Client.State, get: string, f: string, server: Disk,
                  lister: FileSystem -> Daemon.Listing)
    requires Reads(c, get, GET, f) && Readable(server, f) && f !in c.disk.readOnly
    ensures var b := server.files[f];
      var r := Play(c, get, server, lister);
      && r.reply == Frame(Header(FILEOUT, |b|, f), b)
      && r.server == server
      && r.unread == []
      && r.client.Continue?
      && r.client.events == [Client.Received(|b|)]
      && r.client.state.disk.files == c.disk.files[f := b]
  {
    ReadsAs(c, get, GET, f);
    var b := server.files[f];
    var gh := Header(GET, 0, f);
    assert Request(c, get) == Frame(gh, []) + [];
    RecvFrame(gh, [], []);
    var out := Header(FILEOUT, |b|, f);
    assert Respond(Request(c, get), server, lister) == Remote(Frame(out, b), server, []);
    RecvFrame(out, b, []);
    assert Frame(out, b) == Frame(out, b) + [];
    Client.FixedAgrees(c, Client.Line(get), Frame(out, b));
    Client.GetExchange(c, get, out, b, []);
    var r := Play(c, get, server, lister);
    UpdatedAt(c.disk.files, r.client.state.disk.files, f, b);
  }

  /** `get f` of a file the daemon lacks or cannot read: the reply is a bare
      NAK naming f, which the client reports as a mismatch, and neither side
      changes. */
  lemma GetRefused(c: Client.State, get: string, f: string, server: Disk,
                   lister: FileSystem -> Daemon.Listing)
    requires Reads(c, get, GET, f) && !Readable(server, f)
    ensures var r := Play(c, get, server, lister);
      && r.reply == Frame(Header(NAK, 0, f), [])
      && r.server == server
      && r.unread == []
      && r.client == Client.Continue(Client.State([], c.disk), Frame(Header(GET, 0, f), []), [],
                                     [Client.Mismatch(GET, Header(NAK, 0, f))])
  {
    ReadsAs(c, get, GET, f);
    var gh := Header(GET, 0, f);
    assert Request(c, get) == Frame(gh, []) + [];
    RecvFrame(gh, [], []);
    var nak := Header(NAK, 0, f);
    assert Respond(Request(c, get), server, lister) == Remote(Frame(nak, []), server, []);
    RecvFrame(nak, [], []);
    assert Frame(nak, []) == Frame(nak, []) + [];
    Client.FixedAgrees(c, Client.Line(get), Frame(nak, []));
    Client.GetExchange(c, get, nak, [], []);
    assert Data([]) + [] == [];
  }

  /** A map that agrees with `m` away from `k` and holds `v` at `k` is `m[k := v]`. */
  lemma UpdatedAt(m: FileSystem, m': FileSystem, k: string, v: Bytes)
    requires k in m' && m'[k] == v && m' - {k} == m - {k}
    ensures m' == m[k := v]
  {
    forall x | x in m' || x in m[k := v]
      ensures x in m' && x in m[k := v] && m'[x] == m[k := v][x]
    {
      if x != k {
        assert x in m' - {k} <==> x in m - {k};
      }
    }
  }

  /** `put f` then `get f`: the daemon stores exactly the client's bytes and
      acknowledges (the ACK still carrying the PUT's size). When the daemon may
      read f, a client without f, or with an older f, that then runs `get f`
      ends up with exactly those bytes and its other files as they were; when
      it may not (f was there before, without read permission), the get is
      refused and the client's directory does not change. */
  lemma PutThenGet(c1: Client.State, put: string, c2: Client.State, get: string, f: string,
                   server: Disk, lister: FileSystem -> Daemon.Listing)
    requires Reads(c1, put, PUT, f) && Readable(c1.disk, f) && f !in server.readOnly
    requires Reads(c2, get, GET, f) && f !in c2.disk.readOnly
    ensures
      var b := c1.disk.files[f];
      var r1 := Play(c1, put, server, lister);
      var r2 := Play(c2, get, r1.server, lister);
      && Request(c1, put) == Frame(Header(PUT, |b|, f), b)
      && r1.server.files == server.files[f := b]
      && r1.reply == Frame(Header(ACK, |b|, f), [])
      && r1.client.Continue?
      && r1.client.events == [Client.Answer(PUT, Header(ACK, |b|, f))]
      && r2.server == r1.server
      && r2.client.Continue?
      && (f !in server.unreadable ==>
            r2.reply == Frame(Header(FILEOUT, |b|, f), b) &&
            r2.client.state.disk.files == c2.disk.files[f := b])
      && (f in server.unreadable ==>
            r2.reply == Frame(Header(NAK, 0, f), []) && r2.client.state.disk == c2.disk)
  {
    PutPlayed(c1, put, f, server, lister);
    var r1 := Play(c1, put, server, lister);
    if f in server.unreadable {
      GetRefused(c2, get, f, r1.server, lister);
    } else {
      GetPlayed(c2, get, f, r1.server, lister);
    }
  }

  /** `rm f` for a file the daemon holds and may unlink (one just put, say) is
      acknowledged and removes it; a `get f` after it is refused and leaves the
      client's directory as it was. */
  lemma RemoveThenGet(c1: Client.State, rm: string, c2: Client.State, get: string, f: string,
                      server: Disk, lister: FileSystem -> Daemon.Listing)
    requires Reads(c1, rm, RM, f) && Reads(c2, get, GET, f) && f in server.files && f !in server.pinned
    ensures
      var r1 := Play(c1, rm, server, lister);
      var r2 := Play(c2, get, r1.server, lister);
      && r1.server.files == server.files - {f}
      && r1.client.Continue?
      && r1.client.events == [Client.Answer(RM, Header(ACK, 0, f))]
      && RecvHeader(r2.reply) == Got(Header(NAK, 0, f), [])
      && r2.client.Continue?
      && r2.client.events == [Client.Mismatch(GET, Header(NAK, 0, f))]
      && r2.client.state.disk == c2.disk
      && r2.server == r1.server
  {
    ReadsAs(c1, rm, RM, f);
    ReadsAs(c2, get, GET, f);
    var rh := Header(RM, 0, f);
    assert Request(c1, rm) == Frame(rh, []) + [];
    RecvFrame(rh, [], []);
    var server1 := server.(files := server.files - {f});
    var ack := Header(ACK, 0, f);
    assert Respond(Request(c1, rm), server, lister) == Remote(Frame(ack, []), server1, []);
    RecvFrame(ack, [], []);
    assert Frame(ack, []) == Frame(ack, []) + [];
    Client.FixedAgrees(c1, Client.Line(rm), Frame(ack, []));
    Client.RemoveExchange(c1, rm, ack, [], []);
    var gh := Header(GET, 0, f);
    assert Request(c2, get) == Frame(gh, []) + [];
    RecvFrame(gh, [], []);
    var nak := Header(NAK, 0, f);
    assert Respond(Request(c2, get), server1, lister) == Remote(Frame(nak, []), server1, []);
    RecvFrame(nak, [], []);
    assert Frame(nak, []) == Frame(nak, []) + [];
    Client.FixedAgrees(c2, Client.Line(get), Frame(nak, []));
    Client.GetExchange(c2, get, nak, [], []);
  }

  /** `rm f` for a file the daemon does not have, or cannot unlink, is refused
      and changes nothing on either side. */
  lemma RemoveRefused(c: Client.State, rm: string, f: string, server: Disk,
                      lister: FileSystem -> Daemon.Listing)
    requires Reads(c, rm, RM, f) && (f !in server.files || f in server.pinned)
    ensures
      var r := Play(c, rm, server, lister);
      && r.server == server
      && r.client == Client.Continue(Client.State([], c.disk), Frame(Header(RM, 0, f), []), [],
                                     [Client.Answer(RM, Header(NAK, 0, f))])
  {
    ReadsAs(c, rm, RM, f);
    var rh := Header(RM, 0, f);
    assert Request(c, rm) == Frame(rh, []) + [];
    RecvFrame(rh, [], []);
    var nak := Header(NAK, 0, f);
    assert Respond(Request(c, rm), server, lister) == Remote(Frame(nak, []), server, []);
    RecvFrame(nak, [], []);
    assert Frame(nak, []) == Frame(nak, []) + [];
    Client.FixedAgrees(c, Client.Line(rm), Frame(nak, []));
    Client.RemoveExchange(c, rm, nak, [], []);
    assert Data([]) + [] == [];
  }

  /** `NotesExample` for the lines exactly as typed, "put notes.txt" and
      "get notes.txt". */
  lemma NotesTyped(lister: FileSystem -> Daemon.Listing)
    ensures Client.Words("put" + " " + "notes.txt") == ["put", "notes.txt"]
    ensures Client.Words("get" + " " + "notes.txt") == ["get", "notes.txt"]
    ensures
      var put := "put" + " " + "notes.txt";
      var get := "get" + " " + "notes.txt";
      var abc: Bytes := [97, 98, 99];
      var c1 := Client.State([], Disk(map["notes.txt" := abc], {}, {}, {}));
      var c2 := Client.State([], Disk(map[], {}, {}, {}));
      var r1 := Play(c1, put, Disk(map[], {}, {}, {}), lister);
      var r2 := Play(c2, get, r1.server, lister);
      && Request(c1, put) == Frame(Header(PUT, 3, "notes.txt"), abc)
      && r1.reply == Frame(Header(ACK, 3, "notes.txt"), [])
      && r1.server.files == map["notes.txt" := abc]
      && r2.client.Continue? && r2.client.state.disk.files == map["notes.txt" := abc]
  {
    WordsOfCommand("put", "notes.txt");
    WordsOfCommand("get", "notes.txt");
    NotesExample("put" + " " + "notes.txt", "get" + " " + "notes.txt", lister);
  }

  /** The name `notes.txt` is a valid filename, so a line splitting into a
      command word and it reads as that command applied to it. */
  lemma NotesReads(s: Client.State, text: string, c: Command)
    requires s.tokens == [] && (c == PUT || c == GET)
    requires Client.Words(text) == [Client.Word(c), "notes.txt"]
    ensures Reads(s, text, c, "notes.txt")
  {
    assert ValidFilename("notes.txt");
  }

  /** `put notes.txt` with a local three-byte file sends a PUT header of size 3
      followed by the bytes and is answered with an ACK that still says 3;
      `get notes.txt` from an empty client then recreates the file.
      (`WordsOfCommand` gives the word splits required here for the lines
      "put notes.txt" and "get notes.txt".) */
  lemma NotesExample(put: string, get: string, lister: FileSystem -> Daemon.Listing)
    requires Client.Words(put) == ["put", "notes.txt"]
    requires Client.Words(get) == ["get", "notes.txt"]
    ensures
      var abc: Bytes := [97, 98, 99];
      var c1 := Client.State([], Disk(map["notes.txt" := abc], {}, {}, {}));
      var c2 := Client.State([], Disk(map[], {}, {}, {}));
      var r1 := Play(c1, put, Disk(map[], {}, {}, {}), lister);
      var r2 := Play(c2, get, r1.server, lister);
      && Request(c1, put) == Frame(Header(PUT, 3, "notes.txt"), abc)
      && r1.reply == Frame(Header(ACK, 3, "notes.txt"), [])
      && r1.server.files == map["notes.txt" := abc]
      && r2.client.Continue? && r2.client.state.disk.files == map["notes.txt" := abc]
  {
    var abc: Bytes := [97, 98, 99];
    var f := "notes.txt";
    var c1 := Client.State([], Disk(map[f := abc], {}, {}, {}));
    var c2 := Client.State([], Disk(map[], {}, {}, {}));
    var server := Disk(map[], {}, {}, {});
    NotesReads(c1, put, PUT);
    NotesReads(c2, get, GET);
    FreshPutThenGet(c1, put, c2, get, f, abc, server, lister);
  }

  /** `PutThenGet` between a client holding only f, an empty client and an
      empty daemon. */
  lemma FreshPutThenGet(c1: Client.State, put: string, c2: Client.State, get: string, f: string,
                        b: Bytes, server: Disk, lister: FileSystem -> Daemon.Listing)
    requires Reads(c1, put, PUT, f) && Reads(c2, get, GET, f)
    requires c1.disk == Disk(map[f := b], {}, {}, {}) && c2.disk == Disk(map[], {}, {}, {})
    requires server == Disk(map[], {}, {}, {})
    ensures
      var r1 := Play(c1, put, server, lister);
      var r2 := Play(c2, get, r1.server, lister);
      && Request(c1, put) == Frame(Header(PUT, |b|, f), b)
      && r1.reply == Frame(Header(ACK, |b|, f), [])
      && r1.server.files == map[f := b]
      && r2.client.Continue? && r2.client.state.disk.files == map[f := b]
  {
    PutThenGet(c1, put, c2, get, f, server, lister);
    assert server.files[f := b] == map[f := b];
    assert c2.disk.files[f := b] == map[f := b];
  }
}

=== FILE: protocol.dfy ===
/**
 The vocabulary shared by the cix client and the cixd daemon: command tags,
 the message header, the filesystems the two sides act on, and the wire as a
 sequence of header blocks and payload bytes with the exact-length reads that
 both sides perform on it.
 */
module Protocol {

  newtype byte = x: int | 0 <= x < 256

  type Bytes = seq<byte>

  /** A directory of regular files: name to contents. */
  type FileSystem = map<string, Bytes>

  datatype Option<+T> = None | Some(value: T)

  /** Capacity of the header's filename field, terminating NUL included. */
  const FilenameSize: nat := 59

  /** The tags of the protocol. ERROR never travels: it is the client's "no such command". */
  datatype Command = ERROR | EXIT | GET | HELP | LS | PUT | RM | FILEOUT | LSOUT | ACK | NAK

  /** The fixed-size block that precedes every message. */
  datatype Header = Header(command: Command, nbytes: nat, filename: string)

  /** A name the client can copy into the header: it fits the field with its
      NUL, and holds no '%' (the client uses the name as a format string). */
  predicate ValidFilename(name: string)
  {
    |name| < FilenameSize && '%' !in name
  }

  /** The requests the daemon answers. */
  predicate Served(c: Command)
  {
    c == LS || c == GET || c == PUT || c == RM
  }

  /** The tags the daemon may answer a request with. */
  function Admissible(request: Command): set<Command>
  {
    match request
    case LS => {LSOUT, NAK}
    case GET => {FILEOUT, NAK}
    case PUT => {ACK, NAK}
    case RM => {ACK, NAK}
    case _ => {}
  }

  /** The tags whose header is followed by exactly `nbytes` payload bytes. */
  predicate CarriesPayload(c: Command)
  {
    c == PUT || c == FILEOUT || c == LSOUT
  }

  /** A header and the payload after it agree: exactly `nbytes` bytes follow a
      tag that carries a payload, none follow any other. */
  predicate Framed(h: Header, payload: Bytes)
  {
    if CarriesPayload(h.command) then h.nbytes == |payload| else payload == []
  }

  /** One side's working directory: its files, the names that cannot be
      opened for writing (an output stream on them fails), the names that
      cannot be unlinked (permissions, a read-only filesystem), and the names
      that cannot be opened for reading even when present (a file of another
      user without read permission). */
  datatype Disk = Disk(files: FileSystem, readOnly: set<string>, pinned: set<string>,
                       unreadable: set<string>)

  /** An input stream on `name` opens: the file exists and may be read. */
  predicate Readable(d: Disk, name: string)
  {
    name in d.files && name !in d.unreadable
  }

  /** Creating or truncating `name` and writing `content` into it; a failed
      open leaves the directory as it was. */
  function Write(d: Disk, name: string, content: Bytes): Disk
  {
    if name in d.readOnly then d else d.(files := d.files[name := content])
  }

  /** What travels on a connection: a header block is sent and received whole,
      a payload byte by byte. */
  datatype Item = HeaderItem(header: Header) | DataByte(value: byte)

  function Data(bs: Bytes): (r: seq<Item>)
    ensures |r| == |bs|
    ensures forall i :: 0 <= i < |bs| ==> r[i] == DataByte(bs[i])
  {
    seq(|bs|, i requires 0 <= i < |bs| => DataByte(bs[i]))
  }

  /** A header followed by its payload. */
  function Frame(h: Header, payload: Bytes): seq<Item>
  {
    [HeaderItem(h)] + Data(payload)
  }

  /** The outcome of a blocking read: the value and what follows it, the peer
      closing first, or the stream holding the other kind of item where the
      reader expected this one. */
  datatype Read<+T> = Got(value: T, rest: seq<Item>) | Closed | Misframed

  /** Receiving one header block. */
  function RecvHeader(s: seq<Item>): (r: Read<Header>)
    ensures r.Got? ==> s == [HeaderItem(r.value)] + r.rest
    ensures r.Closed? <==> s == []
    ensures r.Misframed? <==> s != [] && s[0].DataByte?
  {
    if s == [] then Closed
    else if s[0].HeaderItem? then Got(s[0].header, s[1..])
    else Misframed
  }

  /** Receiving exactly `n` payload bytes. */
  function RecvBytes(s: seq<Item>, n: nat): (r: Read<Bytes>)
    ensures r.Got? ==> |r.value| == n && s == Data(r.value) + r.rest
    ensures r.Closed? ==> |s| < n && forall i :: 0 <= i < |s| ==> s[i].DataByte?
    ensures r.Misframed? ==> exists i :: 0 <= i < n && i < |s| && s[i].HeaderItem?
    decreases n
  {
    if n == 0 then Got([], s)
    else if s == [] then Closed
    else if s[0].HeaderItem? then Misframed
    else
      match RecvBytes(s[1..], n - 1)
      case Got(bs, rest) =>
        assert Data([s[0].value] + bs) == [s[0]] + Data(bs);
        Got([s[0].value] + bs, rest)
      case Closed => Closed
      case Misframed =>
        assert exists i :: 0 <= i < n - 1 && i < |s| - 1 && s[1..][i].HeaderItem?;
        var i :| 0 <= i < n - 1 && i < |s| - 1 && s[1..][i].HeaderItem?;
        assert s[i + 1].HeaderItem?;
        Misframed
  }

  /** A payload sent as data is received back whole, and the reader stops
      exactly at its end. */
  lemma {:induction false} RecvBytesOfData(bs: Bytes, rest: seq<Item>)
    ensures RecvBytes(Data(bs) + rest, |bs|) == Got(bs, rest)
  {
    if bs != [] {
      var s := Data(bs) + rest;
      assert s[1..] == Data(bs[1..]) + rest;
      RecvBytesOfData(bs[1..], rest);
      assert [s[0].value] + bs[1..] == bs;
    }
  }

  /** A frame is read back as the header and the payload it was built from. */
  lemma RecvFrame(h: Header, payload: Bytes, rest: seq<Item>)
    ensures RecvHeader(Frame(h, payload) + rest) == Got(h, Data(payload) + rest)
    ensures RecvBytes(Data(payload) + rest, |payload|) == Got(payload, rest)
  {
    assert (Frame(h, payload) + rest)[1..] == Data(payload) + rest;
    RecvBytesOfData(payload, rest);
  }
}

=== FILE: supervisor.dfy ===
/**
 The sequential rules of the cixd supervisor: the accept loop, which retries an
 accept interrupted by a signal and gives up on any other failure, and
 `reap_zombies`, which collects finished children until none is left. The
 outcomes of `accept`, `fork` and `waitpid` are given as data.
 */
module Supervisor {
  import opened Protocol

  /** The errno of a system call interrupted by a signal (Linux). */
  const EINTR: int := 4

  /** One call of `accept` on the listener: a connection, or a failure with its errno. */
  datatype Attempt = Accepted(conn: nat) | Refused(errno: int)

  /** What the retry loop around `accept` ends with: a connection after some
      interrupted calls, the failure that ends the daemon and its position, or
      still waiting when the given calls run out. */
  datatype Acceptance = Connection(conn: nat, retries: nat) | Fatal(errno: int, at: nat) | Waiting

  /** Every call in `s` was interrupted by a signal. */
  predicate Interrupted(s: seq<Attempt>)
  {
    forall i :: 0 <= i < |s| ==> s[i] == Refused(EINTR)
  }

  /** The inner `for(;;)` of `main`: interrupted calls are retried, a connection
      ends the loop, any other failure is rethrown. */
  function AcceptRetry(attempts: seq<Attempt>): (r: Acceptance)
    ensures r.Connection? ==>
              r.retries < |attempts| && attempts[r.retries] == Accepted(r.conn) &&
              Interrupted(attempts[..r.retries])
    ensures r.Fatal? ==>
              r.at < |attempts| && attempts[r.at] == Refused(r.errno) && r.errno != EINTR &&
              Interrupted(attempts[..r.at])
    ensures r.Waiting? ==> Interrupted(attempts)
  {
    if attempts == [] then Waiting
    else
      match attempts[0]
      case Accepted(conn) => Connection(conn, 0)
      case Refused(errno) =>
        if errno != EINTR then Fatal(errno, 0)
        else
          match AcceptRetry(attempts[1..])
          case Connection(conn, retries) =>
            assert attempts[..retries + 1] == [attempts[0]] + attempts[1..][..retries];
            Connection(conn, retries + 1)
          case Fatal(e, at) =>
            assert attempts[..at + 1] == [attempts[0]] + attempts[1..][..at];
            Fatal(e, at + 1)
          case Waiting => Waiting
  }

  /** A signal delivered during `accept` does not stop the daemon: the next
      connection attempt is still accepted. */
  lemma InterruptThenConnect(conn: nat)
    ensures AcceptRetry([Refused(EINTR), Accepted(conn)]) == Connection(conn, 1)
  {
  }

  /** A child process of the daemon: its pid and whether it has terminated. */
  datatype Child = Child(pid: nat, finished: bool)

  /** The children still running, in order. */
  function Running(table: seq<Child>): seq<Child>
  {
    if table == [] then []
    else (if table[0].finished then [] else [table[0]]) + Running(table[1..])
  }

  /** The pids of the terminated children, in order. */
  function FinishedPids(table: seq<Child>): seq<nat>
  {
    if table == [] then []
    else (if table[0].finished then [table[0].pid] else []) + FinishedPids(table[1..])
  }

  /** `waitpid(-1, &status, WNOHANG)`: a terminated child, which is collected and
      leaves the table, or none when no child has terminated. */
  function Waitpid(table: seq<Child>): (r: Option<(nat, seq<Child>)>)
    ensures r.None? <==> forall i :: 0 <= i < |table| ==> !table[i].finished
    ensures r.Some? ==> |r.value.1| == |table| - 1
  {
    if table == [] then None
    else if table[0].finished then Some((table[0].pid, table[1..]))
    else
      match Waitpid(table[1..])
      case None => None
      case Some((pid, rest)) => Some((pid, [table[0]] + rest))
  }

  /** Each collection takes one terminated child off the table and leaves the
      running ones alone. */
  lemma {:induction false} WaitpidTakesOne(table: seq<Child>)
    requires Waitpid(table).Some?
    ensures var (pid, rest) := Waitpid(table).value;
      Running(rest) == Running(table) && FinishedPids(table) == [pid] + FinishedPids(rest)
  {
    if table[0].finished {
      assert Waitpid(table).value == (table[0].pid, table[1..]);
    } else {
      WaitpidTakesOne(table[1..]);
      var (pid, rest) := Waitpid(table[1..]).value;
      var rest' := [table[0]] + rest;
      assert Waitpid(table).value == (pid, rest');
      assert rest'[1..] == rest;
      assert Running(rest') == [table[0]] + Running(rest);
      assert FinishedPids(rest') == FinishedPids(rest);
    }
  }

  /** A table with no terminated child is all running. */
  lemma {:induction false} NoneFinished(table: seq<Child>)
    requires forall i :: 0 <= i < |table| ==> !table[i].finished
    ensures Running(table) == table && FinishedPids(table) == []
  {
    if table != [] {
      NoneFinished(table[1..]);
    }
  }

  /** `reap_zombies`: collect terminated children until `waitpid` reports none.
      Every terminated child is collected, in table order, and every running
      one stays. */
  method ReapZombies(table: seq<Child>) returns (remaining: seq<Child>, reaped: seq<nat>)
    ensures remaining == Running(table)
    ensures reaped == FinishedPids(table)
    ensures forall i :: 0 <= i < |remaining| ==> !remaining[i].finished
  {
    remaining := table;
    reaped := [];
    var next := Waitpid(remaining);
    while next.Some?
      invariant next == Waitpid(remaining)
      invariant Running(remaining) == Running(table)
      invariant reaped + FinishedPids(remaining) == FinishedPids(table)
      decreases |remaining|
    {
      WaitpidTakesOne(remaining);
      var (pid, rest) := next.value;
      remaining := rest;
      reaped := reaped + [pid];
      next := Waitpid(remaining);
    }
    NoneFinished(remaining);
  }

  /** No terminated child is left uncollected. */
  predicate NoZombies(table: seq<Child>)
  {
    forall i :: 0 <= i < |table| ==> !table[i].finished
  }

  lemma {:induction false} RunningIsRunning(table: seq<Child>)
    ensures NoZombies(Running(table))
    ensures |Running(table)| <= |table|
  {
    if table != [] {
      RunningIsRunning(table[1..]);
    }
  }

  /** The outcome of `fork`: the child's pid, or a failure that is only logged. */
  datatype Fork = Forked(pid: nat) | ForkFailed(errno: int)

  /** One turn of the outer loop of `main`: the children whose pids are in
      `exited` terminate and the SIGCHLD handler sweeps them; then the daemon
      accepts, forks, and sweeps again. */
  datatype Round = Round(exited: set<nat>, attempts: seq<Attempt>, fork: Fork)

  /** Children in `exited` terminate. */
  function Exit(table: seq<Child>, exited: set<nat>): (r: seq<Child>)
    ensures |r| == |table|
    ensures forall i :: 0 <= i < |table| ==>
              r[i].pid == table[i].pid && r[i].finished == (table[i].finished || table[i].pid in exited)
  {
    seq(|table|, i requires 0 <= i < |table| =>
      table[i].(finished := table[i].finished || table[i].pid in exited))
  }

  /** The daemon after a run of rounds: connections accepted, its children, and
      the errno that ended it, if any. */
  datatype Run = Run(accepted: nat, table: seq<Child>, stopped: Option<int>)

  /** The outer loop of `main`. It ends when an accept fails for a reason other
      than a signal; it is still running when the rounds, or the accept calls
      of the last round, give out. A failed fork is only logged. */
  function Supervise(table: seq<Child>, rounds: seq<Round>): (r: Run)
    ensures NoZombies(table) ==> NoZombies(r.table)
    ensures r.accepted <= |rounds|
    ensures r.stopped.Some? ==> r.stopped.value != EINTR
    decreases |rounds|
  {
    if rounds == [] then Run(0, table, None)
    else
      var round := rounds[0];
      var swept := Running(Exit(table, round.exited));
      RunningIsRunning(Exit(table, round.exited));
      match AcceptRetry(round.attempts)
      case Fatal(errno, _) => Run(0, swept, Some(errno))
      case Waiting => Run(0, swept, None)
      case Connection(_, _) =>
        var spawned := if round.fork.Forked? then swept + [Child(round.fork.pid, false)] else swept;
        var reaped := Running(spawned);
        RunningIsRunning(spawned);
        var later := Supervise(reaped, rounds[1..]);
        later.(accepted := later.accepted + 1)
  }

  /** With every accept eventually succeeding, the daemon keeps going and
      accepts exactly one connection per round. */
  lemma {:induction false} EveryRoundAccepts(table: seq<Child>, rounds: seq<Round>)
    requires forall k :: 0 <= k < |rounds| ==> AcceptRetry(rounds[k].attempts).Connection?
    ensures Supervise(table, rounds).accepted == |rounds|
    ensures Supervise(table, rounds).stopped == None
    decreases |rounds|
  {
    if rounds != [] {
      var swept := Running(Exit(table, rounds[0].exited));
      var spawned := if rounds[0].fork.Forked? then swept + [Child(rounds[0].fork.pid, false)] else swept;
      EveryRoundAccepts(Running(spawned), rounds[1..]);
    }
  }

  /** An accept that fails for a reason other than a signal ends the daemon:
      after the rounds before it, each of which accepted one connection, the
      run stops with that failure's errno and accepts nothing more. */
  lemma {:induction false} FatalStops(table: seq<Child>, rounds: seq<Round>, k: nat)
    requires k < |rounds|
    requires forall j :: 0 <= j < k ==> AcceptRetry(rounds[j].attempts).Connection?
    requires AcceptRetry(rounds[k].attempts).Fatal?
    ensures Supervise(table, rounds).stopped == Some(AcceptRetry(rounds[k].attempts).errno)
    ensures Supervise(table, rounds).accepted == k
    decreases k
  {
    if k > 0 {
      var swept := Running(Exit(table, rounds[0].exited));
      var spawned := if rounds[0].fork.Forked? then swept + [Child(rounds[0].fork.pid, false)] else swept;
      assert AcceptRetry(rounds[0].attempts).Connection?;
      FatalStops(Running(spawned), rounds[1..], k - 1);
    }
  }

  /** Once every worker has exited, the sweep leaves no child behind. */
  lemma {:induction false} AllExitedAllReaped(table: seq<Child>, exited: set<nat>)
    requires forall i :: 0 <= i < |table| ==> table[i].pid in exited
    ensures Running(Exit(table, exited)) == []
  {
    var t := Exit(table, exited);
    AllFinished(t);
  }

  lemma {:induction false} AllFinished(table: seq<Child>)
    requires forall i :: 0 <= i < |table| ==> table[i].finished
    ensures Running(table) == []
  {
    if table != [] {
      AllFinished(table[1..]);
    }
  }
}
